=== FILE: README.md ===
# CWP protocol engine, modelled in Dafny

A model of the client-side engine of the CWP telegraphy line protocol, as
implemented by `CWProtocolImplementation`: the state record, the local
control API (`lineUp`, `lineDown`, `setFrequency`, `frequency`,
`isConnected`, `lineIsUp`), the processing step `run()` that applies what
the reader staged, the reader thread's length-driven decode loop, the
writer thread's two-slot sender, and the line-up watchdog.

Each thread body is one pure step function over an immutable record.
Time is a parameter (`now`, milliseconds). Events sent to the listener are
returned as a list. A `read` call is a parameter too: the bytes it returned,
or end of stream.

| file | module | models |
|---|---|---|
| ints.dfy | `Ints` | Java `int`/`short` casts and `Math.abs` |
| wire.dfy | `Wire` | `putInt`/`putShort` and `getInt`/`getShort`, big-endian |
| cw_protocol.dfy | `CWProtocol` | the shared fields and the control API |
| inbound.dfy | `Inbound` | `run()`, the processing of a staged state |
| connection_reader.dfy | `ConnectionReader` | `CWPConnectionReader`: read loop, classification, length switching |
| connection_writer.dfy | `ConnectionWriter` | `CWPConnectionWriter`: one pass of the send loop |
| watchdog.dfy | `Watchdog` | the timer task and `handleLongLineUpMessage` |
| session.dfy | `Session` | a read, its processing and the writer's next frame, end to end |

The wire carries 4-byte and 2-byte big-endian signed integers, with no tag.
The reader tells frames apart by the length it expects and the sign of the
value. A 2-byte frame is a line-down. A positive 4-byte frame is a line-up,
and after it a 2-byte frame is expected. A negative 4-byte frame is a
line-down or frequency confirmation. The 4-byte value -2147483648 is
reserved and ignored.

Points where the code behaves otherwise than a reader of its interface might
expect, all modelled as the code has them:
- `lineUp` and `lineDown` always stage their payload and change the state.
  A server-driven line only suppresses the local event.
- The outbound side has two slots, `data32bit` and `data16bit`, not one.
  Both can be full at once; the 32-bit slot is sent first. A 16-bit slot
  that is not positive is never sent.
- A frequency confirmation that matches is reported with
  `EChangedFrequency`, and then, falling through, as a line-down with `ELineDown`.
- While the user holds the line, `run()` never changes the state, whatever
  was staged (see Findings).

## Model

| member | source | states |
|---|---|---|
| Ints.ToInt32 | app/src/main/java/esde06/tol/oulu/fi/cwprotocol/CWProtocolImplementation.java:75 | the `(int)` cast of a millisecond difference agrees with it modulo 2^32 and is exact when the difference fits |
| Ints.ToInt16 | app/src/main/java/esde06/tol/oulu/fi/cwprotocol/CWProtocolImplementation.java:100 | the `(short)` cast agrees with the difference modulo 2^16 and is exact when it fits |
| Ints.Abs | app/src/main/java/esde06/tol/oulu/fi/cwprotocol/CWProtocolImplementation.java:189 | `Math.abs` gives a non-negative magnitude, except for the least int, which it returns unchanged |
| Wire.Encode32 | app/src/main/java/esde06/tol/oulu/fi/cwprotocol/CWProtocolImplementation.java:441-449 | `sendMessage(int)` writes exactly 4 bytes, most significant first, spelling the two's-complement bit pattern of the value; the first byte's top bit is the sign |
| Wire.Decode32 | app/src/main/java/esde06/tol/oulu/fi/cwprotocol/CWProtocolImplementation.java:381-382 | `getInt` reads 4 bytes most significant first and gives the value congruent to them modulo 2^32; it is negative exactly when the first byte's top bit is set |
| Wire.Encode16 | app/src/main/java/esde06/tol/oulu/fi/cwprotocol/CWProtocolImplementation.java:451-459 | `sendMessage(short)` writes exactly 2 bytes, most significant first, spelling the two's-complement bit pattern of the value; the first byte's top bit is the sign |
| Wire.Decode16 | app/src/main/java/esde06/tol/oulu/fi/cwprotocol/CWProtocolImplementation.java:373-374 | `getShort` reads 2 bytes most significant first and gives the value congruent to them modulo 2^16; it is negative exactly when the first byte's top bit is set |
| Wire.Decode32Encode32 | app/src/main/java/esde06/tol/oulu/fi/cwprotocol/CWProtocolImplementation.java:441-449 | decoding the 4 bytes sent for any int gives the int back |
| Wire.Encode32Decode32 | app/src/main/java/esde06/tol/oulu/fi/cwprotocol/CWProtocolImplementation.java:381-382 | every 4-byte frame is the encoding of the value decoded from it |
| Wire.Decode16Encode16 | app/src/main/java/esde06/tol/oulu/fi/cwprotocol/CWProtocolImplementation.java:451-459 | decoding the 2 bytes sent for any short gives the short back |
| Wire.Encode16Decode16 | app/src/main/java/esde06/tol/oulu/fi/cwprotocol/CWProtocolImplementation.java:373-374 | every 2-byte frame is the encoding of the value decoded from it |
| CWProtocol.Initial | app/src/main/java/esde06/tol/oulu/fi/cwprotocol/CWProtocolImplementation.java:29-52 | a new engine is Disconnected, with both flags clear, both slots empty, both stamps 0, no timer, the gate closed and the default frequency; so a `lineUp` before any connection stages `(int) now`, the clock's low 32 bits, which can be 0 or negative |
| CWProtocol.Negated | app/src/main/java/esde06/tol/oulu/fi/cwprotocol/CWProtocolImplementation.java:184 | `Math.abs(f) * -1` is never positive and is minus the magnitude of f; it equals the reserved value exactly when f is the least int |
| CWProtocol.Stage32 | app/src/main/java/esde06/tol/oulu/fi/cwprotocol/CWProtocolImplementation.java:76-85 | staging a 32-bit payload overwrites the 32-bit slot and opens the writer's gate, changing nothing else |
| CWProtocol.Stage16 | app/src/main/java/esde06/tol/oulu/fi/cwprotocol/CWProtocolImplementation.java:101-110 | staging a 16-bit payload overwrites the 16-bit slot and opens the writer's gate, changing nothing else |
| CWProtocol.Connect | app/src/main/java/esde06/tol/oulu/fi/cwprotocol/CWProtocolImplementation.java:121-125 | `connect` stores minus the magnitude of the frequency (the reserved value for the least int), so the stored value is never positive and `frequency()` reads back the magnitude; nothing else in the engine's state changes |
| CWProtocol.LineUpByUser | app/src/main/java/esde06/tol/oulu/fi/cwprotocol/CWProtocolImplementation.java:70-94 | the user's line-up sets the user flag, restarts the hold, stages the time since connecting in the 32-bit slot and makes the line up; ELineUp(0) is emitted exactly when the server has not already raised the line |
| CWProtocol.LineDownByUser | app/src/main/java/esde06/tol/oulu/fi/cwprotocol/CWProtocolImplementation.java:96-119 | the user's line-down clears the user flag, stages the hold time in the 16-bit slot, opens the gate, disarms the timer and makes the line down, leaving the 32-bit slot, server flag, frequency and both stamps alone; ELineDown(0) is emitted exactly when the server had not raised the line; with no watchdog armed it throws before any event |
| CWProtocol.SendFrequency | app/src/main/java/esde06/tol/oulu/fi/cwprotocol/CWProtocolImplementation.java:147-165 | the reserved frequency is never staged and then nothing changes; otherwise the stored frequency goes into the 32-bit slot, the gate opens, the state becomes Connected, nothing else changes, and EConnected(0) is emitted |
| CWProtocol.SetFrequency | app/src/main/java/esde06/tol/oulu/fi/cwprotocol/CWProtocolImplementation.java:179-186 | a no-op while the line is up; otherwise the frequency is stored negated and reads back as its magnitude; it is staged, the gate opens and the state becomes Connected with the flags, stamps, 16-bit slot and timer left alone; the least int becomes the reserved value and sends nothing |
| CWProtocol.Frequency | app/src/main/java/esde06/tol/oulu/fi/cwprotocol/CWProtocolImplementation.java:188-190 | `frequency()` is the magnitude of the stored value, whatever its sign, and the least int for the least int; negating it again gives back a negated stored frequency |
| CWProtocol.IsConnected | app/src/main/java/esde06/tol/oulu/fi/cwprotocol/CWProtocolImplementation.java:167-169 | `isConnected()` holds in Connected and in both line states, and only there |
| CWProtocol.LineIsUp | app/src/main/java/esde06/tol/oulu/fi/cwprotocol/CWProtocolImplementation.java:171-173 | `lineIsUp()` holds exactly in LineUp, and a line that is up is connected |
| CWProtocol.LocalOperationsKeepFrequencyNegated | app/src/main/java/esde06/tol/oulu/fi/cwprotocol/CWProtocolImplementation.java:179-186 | every local operation keeps the stored frequency in negated form |
| CWProtocol.RepeatedSetFrequency | app/src/main/java/esde06/tol/oulu/fi/cwprotocol/CWProtocolImplementation.java:179-186 | setting the same frequency twice is the same as setting it once; of two settings the later one alone is stored and staged, unless it is the least int; `frequency()` then reads the later one's magnitude |
| CWProtocol.AccessorsAfterLocalOperations | app/src/main/java/esde06/tol/oulu/fi/cwprotocol/CWProtocolImplementation.java:167-177 | `lineIsUp` and `isConnected` after each local operation, and `serverSetLineUp` untouched by them |
| Inbound.Announce | app/src/main/java/esde06/tol/oulu/fi/cwprotocol/CWProtocolImplementation.java:222-243 | the switch emits exactly one event matching the current state and carrying the received value; it records the connect time on Connected, clears the server flag on LineDown and sets it on LineUp |
| Inbound.Enter | app/src/main/java/esde06/tol/oulu/fi/cwprotocol/CWProtocolImplementation.java:211-243 | after the staged state is current: a Connected-to-LineDown move with a mismatched value re-sends the stored frequency (nothing with the reserved one), with a matching value reports EChangedFrequency and then the line-down; any other move is reported once by the switch, which records the connect time on Connected, clears the server flag on LineDown, sets it on LineUp and changes nothing else |
| Inbound.Keyed | app/src/main/java/esde06/tol/oulu/fi/cwprotocol/CWProtocolImplementation.java:196-209 | while the user holds the line the state never changes; a staged line change sets the server flag to "staged LineUp" and yields exactly EServerStateChange(value); a staged Connected or Disconnected reaches the switch on the old state, which reports it with the value and leaves the server flag "the line is up" |
| Inbound.DispatchAsWritten | app/src/main/java/esde06/tol/oulu/fi/cwprotocol/CWProtocolImplementation.java:192-245 | while the user holds the line the state never changes; a staged line change sets the server flag to "staged LineUp" and yields exactly EServerStateChange(value); a staged Connected or Disconnected is dropped, the switch reports the old state with the value, and the server flag ends up "the line is up"; in every case but a keyed Disconnected it agrees with `Inbound.Dispatch` |
| Inbound.Dispatch | app/src/main/java/esde06/tol/oulu/fi/cwprotocol/CWProtocolImplementation.java:192-245 | echo suppression; a mismatched frequency confirmation re-sends the stored frequency, or with the reserved one leaves the line down and stages nothing; a matched one emits EChangedFrequency then ELineDown and only lowers the line and the server flag; while the user holds the line a staged Connected is dropped as in the source; any other staged state, a keyed Disconnected included, becomes current and is reported once, with the connect time recorded on Connected and the slots, gate, frequency and hold untouched; the user flag is never changed |
| Inbound.ServerFlagFollowsLineFrames | app/src/main/java/esde06/tol/oulu/fi/cwprotocol/CWProtocolImplementation.java:175-177 | `serverSetLineUp()` after a server line change reports whether the server's line is up, in both the source's and the corrected processing, unless a mismatched confirmation was answered by re-sending |
| Inbound.DisconnectLostWhileKeyed | app/src/main/java/esde06/tol/oulu/fi/cwprotocol/CWProtocolImplementation.java:196-201 | with the user holding the line, a staged Disconnected leaves the line up and the listener hears ELineUp, never EDisconnected |
| Inbound.DisconnectAlwaysReported | app/src/main/java/esde06/tol/oulu/fi/cwprotocol/CWProtocolImplementation.java:228-231 | with the corrected processing a staged Disconnected always becomes current and is reported with its value |
| ConnectionReader.Open | app/src/main/java/esde06/tol/oulu/fi/cwprotocol/CWProtocolImplementation.java:335-342 | once the socket is open the reader stages Connected(0) and expects a 4-byte frame with nothing read |
| ConnectionReader.Classify | app/src/main/java/esde06/tol/oulu/fi/cwprotocol/CWProtocolImplementation.java:373-397 | a 2-byte frame stages LineDown with its decoded short; a 4-byte frame stages nothing exactly when it decodes to 0 or the reserved value, otherwise one state carrying the decoded int, LineUp exactly when it is positive; 2 bytes are expected next exactly after a LineUp |
| ConnectionReader.ClassifyEncoded | app/src/main/java/esde06/tol/oulu/fi/cwprotocol/CWProtocolImplementation.java:373-397 | the frames the writer encodes are classified by the value they carry: short to LineDown, positive int to LineUp, negative non-reserved int to LineDown, reserved or 0 to nothing |
| ConnectionReader.ReadStep | app/src/main/java/esde06/tol/oulu/fi/cwprotocol/CWProtocolImplementation.java:344-404 | nothing is classified until the bytes read reach the expected length; a completed frame is classified and reading restarts at the length it calls for; end of stream stages Disconnected(0) and stops the loop; the reader always stays in a partial 2- or 4-byte frame |
| ConnectionReader.ReadStepAsWritten | app/src/main/java/esde06/tol/oulu/fi/cwprotocol/CWProtocolImplementation.java:359-404 | the source's iteration agrees with `ConnectionReader.ReadStep` except on a completed 4-byte zero, after which the frame is left complete |
| ConnectionReader.ZeroFrameStallsReader | app/src/main/java/esde06/tol/oulu/fi/cwprotocol/CWProtocolImplementation.java:381-399 | after a 4-byte zero the source's reader can only make a zero-length read, which returns it to the same state having staged nothing |
| ConnectionReader.ZeroFrameIsSkipped | app/src/main/java/esde06/tol/oulu/fi/cwprotocol/CWProtocolImplementation.java:388-396 | with the corrected step a 4-byte zero stages nothing and a fresh 4-byte frame is read |
| ConnectionReader.Frames | app/src/main/java/esde06/tol/oulu/fi/cwprotocol/CWProtocolImplementation.java:364-400 | the whole-stream reference decoder always ends inside a partial frame of an expected length, and stages at most one state per two bytes |
| ConnectionReader.Feed | app/src/main/java/esde06/tol/oulu/fi/cwprotocol/CWProtocolImplementation.java:364-369 | the loop over a sequence of reads keeps the reader in a partial frame; reads of one byte at a time always fit |
| ConnectionReader.ChunkingIsTransparent | app/src/main/java/esde06/tol/oulu/fi/cwprotocol/CWProtocolImplementation.java:344-400 | however the stream is split into reads, the loop stages what the reference decoder stages for the same bytes, and stops in the same partial frame |
| ConnectionWriter.SenderStep | app/src/main/java/esde06/tol/oulu/fi/cwprotocol/CWProtocolImplementation.java:461-493 | with the gate open, a non-zero 32-bit slot is sent as 4 bytes decoding to it and emptied; otherwise a positive 16-bit slot is sent as 2 bytes and emptied; otherwise nothing is sent; the gate closes; with it closed nothing happens |
| ConnectionWriter.LatestPayloadWins | app/src/main/java/esde06/tol/oulu/fi/cwprotocol/CWProtocolImplementation.java:466-477 | two 32-bit payloads staged before the writer runs give exactly one frame, carrying the later one |
| Watchdog.Fires | app/src/main/java/esde06/tol/oulu/fi/cwprotocol/CWProtocolImplementation.java:276-282 | a tick acts exactly when the user holds the line, the line is up, and it has been held at least 30000 ms |
| Watchdog.StageSyntheticDown | app/src/main/java/esde06/tol/oulu/fi/cwprotocol/CWProtocolImplementation.java:250-253 | the synthetic line-down stages the hold time in the 16-bit slot and opens the gate, nothing else |
| Watchdog.StageSyntheticUp | app/src/main/java/esde06/tol/oulu/fi/cwprotocol/CWProtocolImplementation.java:259-264 | the synthetic line-up restarts the hold now and stages the time since connecting in the 32-bit slot |
| Watchdog.Tick | app/src/main/java/esde06/tol/oulu/fi/cwprotocol/CWProtocolImplementation.java:274-285 | a tick does nothing unless the user holds the line, the line is up and it has been held 30000 ms; then it stages both payloads and restarts the hold; it never changes the state, the flags or the frequency, and emits no event |
| Watchdog.FiringRestartsHold | app/src/main/java/esde06/tol/oulu/fi/cwprotocol/CWProtocolImplementation.java:259-282 | after a tick fires, a tick within the next 30000 ms does nothing |
| Watchdog.FreshHoldDoesNotFire | app/src/main/java/esde06/tol/oulu/fi/cwprotocol/CWProtocolImplementation.java:70-119 | a tick within 30000 ms of the user's line-up never acts, and after the user's line-down no tick acts |
| Watchdog.ThirdTickFires | app/src/main/java/esde06/tol/oulu/fi/cwprotocol/CWProtocolImplementation.java:280-287 | with ticks every 16000 ms starting at the line-up, the first two ticks of a held line do nothing and the third, at 32000 ms, forces the synthetic pair |
| Watchdog.SyntheticFramesOnTheWire | app/src/main/java/esde06/tol/oulu/fi/cwprotocol/CWProtocolImplementation.java:247-268 | a writer run after the tick sends the line-up frame while the line-down payload waits; a writer run between the halves sends the line-down frame first, then the line-up |
| Session.Deliver | app/src/main/java/esde06/tol/oulu/fi/cwprotocol/CWProtocolImplementation.java:406-420 | staged states are processed in order; with none nothing changes, and processing never touches the user flag |
| Session.Receive | app/src/main/java/esde06/tol/oulu/fi/cwprotocol/CWProtocolImplementation.java:359-420 | a read that does not complete a frame changes nothing and emits nothing; the reader runs on in a partial frame until end of stream; the user flag is never changed |
| Session.OpeningConnects | app/src/main/java/esde06/tol/oulu/fi/cwprotocol/CWProtocolImplementation.java:222-227 | opening the connection makes the engine Connected, records the connect time and emits EConnected(0) |
| Session.ReservedFrameIsInert | app/src/main/java/esde06/tol/oulu/fi/cwprotocol/CWProtocolImplementation.java:388-396 | the reserved value as a 4-byte frame changes no state, emits no event, and a fresh 4-byte frame is expected |
| Session.EndOfStreamDisconnects | app/src/main/java/esde06/tol/oulu/fi/cwprotocol/CWProtocolImplementation.java:401-403 | with the corrected processing, end of stream always ends in Disconnected, reported with EDisconnected(0), and stops the reader |
| Session.ServerLineUp | app/src/main/java/esde06/tol/oulu/fi/cwprotocol/CWProtocolImplementation.java:381-387 | a positive 4-byte frame raises the server flag and makes 2 bytes expected; it is reported as ELineUp(value) unless the user holds the line, then as EServerStateChange(value) with the state unchanged |
| Session.ServerLineDown | app/src/main/java/esde06/tol/oulu/fi/cwprotocol/CWProtocolImplementation.java:373-379 | a 2-byte frame clears the server flag and makes 4 bytes expected; it is reported as ELineDown(value), or as EServerStateChange(value) while the user holds the line |
| Session.MismatchedConfirmationResends | app/src/main/java/esde06/tol/oulu/fi/cwprotocol/CWProtocolImplementation.java:211-215 | a frequency confirmation differing from the stored frequency emits EConnected(0), and the writer's next frame carries the stored frequency |
| Session.ZeroFrequencyIsNeverSent | app/src/main/java/esde06/tol/oulu/fi/cwprotocol/CWProtocolImplementation.java:179-186 | a frequency of 0 is stored and reported with EConnected(0), but it leaves the 32-bit slot looking empty, so the writer sends no 4-byte frame |
| Session.MatchedConfirmationReported | app/src/main/java/esde06/tol/oulu/fi/cwprotocol/CWProtocolImplementation.java:216-236 | a matching confirmation emits EChangedFrequency with the magnitude, then ELineDown, and leaves the line down |
| Session.EchoedLineUpIsNotReported | app/src/main/java/esde06/tol/oulu/fi/cwprotocol/CWProtocolImplementation.java:194-209 | after the user keys the line up, the server's echoed line-up comes out as EServerStateChange, never as a new ELineUp, and the line stays up |

## Left out

- Socket and stream setup and teardown (`doInitialize`, `stopReading`, `disconnect`) are network I/O. A read is a parameter of `ConnectionReader.ReadStep`; the bytes written are the result of `ConnectionWriter.SenderStep`. The `Disconnected` that `stopReading` stages is not modelled separately; it is processed like the one staged at end of stream.
- Threads and locking (the `Semaphore`, its unbalanced acquire/release in `changeProtocolState` and `run()`, interrupted acquisitions) are a concurrency artefact. Each thread body is one atomic step. The `ConditionVariable` gate is the `wake` field.
- `Handler.post` is left out. Staged states are processed one at a time, before the next read. The source's single `nextState`/`messageValue` pair could be overwritten by a second staging before `run()` executes; that race is not modelled.
- Timer scheduling (`Timer.scheduleAtFixedRate`, the 16-second period, cancelling) is left out. `Watchdog.Tick` may be applied at any time, which covers timers leaked by repeated `lineUp` calls. `timerArmed` only records whether `monitor` is non-null.
- `System.currentTimeMillis()` is the parameter `now`, one instant per operation. The source reads the clock up to three times in one watchdog tick. Millisecond differences are unbounded integers: the `long` subtraction cannot change the low 32 or 16 bits the casts keep.
- Write failures in `sendMessage` that raise `IOException` are swallowed and the slot is cleared anyway. The model clears it unconditionally and returns the bytes the write was given.
- ConnectionWriter.SenderStep: assumes the output stream is open. When `nos` is null (a payload staged before `doInitialize` opens the socket, or after `stopReading` clears it), `nos.write` throws `NullPointerException`; the `finally` clears the slot and the exception ends the writer thread, so no later payload is ever sent. Thread death is not modelled.
- Logging (`Log`, `EventLogger`), the listener callback (events are a returned list), the empty `addObserver`/`deleteObserver`, and the server address and port are left out.
- `CWPControl.DEFAULT_FREQUENCY` is not part of this model; `CWProtocol.Initial` takes it as a parameter.
- Session.MismatchedConfirmationResends: requires a non-zero stored frequency, because 0 is also the writer's empty-slot marker; with a stored 0 the resend reports EConnected(0) and nothing reaches the wire, as `Session.ZeroFrequencyIsNeverSent` shows.
- Session.ServerLineDown: covers states other than Connected only, because from Connected a 2-byte frame is a frequency confirmation, which `Inbound.Dispatch` states.

## Findings

| source | as written | input that shows it | evidently intended | confidence | as-written member | corrected member |
|---|---|---|---|---|---|---|
| app/src/main/java/esde06/tol/oulu/fi/cwprotocol/CWProtocolImplementation.java:381-399 | a 4-byte frame of value 0 is neither `> 0` nor `< 0`, so no new read cycle starts; the next `read` asks for 0 bytes, returns 0, and the same frame is decoded again, forever | bytes `00 00 00 00` while a 4-byte frame is expected | the frame is discarded and a fresh 4-byte read cycle starts, as for the reserved value | high; not executed | ConnectionReader.ZeroFrameStallsReader | ConnectionReader.ZeroFrameIsSkipped |
| app/src/main/java/esde06/tol/oulu/fi/cwprotocol/CWProtocolImplementation.java:196-201 | while `lineUpByUser` is set, no staged state is made current, so a staged Disconnected is dropped and the switch reports the old state instead | the user holds the line (state LineUp) and the stream ends: Disconnected(0) is staged and the listener hears ELineUp(0) | Disconnected is made current and EDisconnected reported, since disconnection is the engine's only failure signal; only Disconnected is applied this way: a staged Connected while the line is held is left as the source has it, since `doInitialize` stages it only once, when the connection opens | medium; not executed | Inbound.DisconnectLostWhileKeyed | Inbound.DisconnectAlwaysReported |

`ConnectionReader.ReadStepAsWritten` and `Inbound.DispatchAsWritten` are the as-written definitions. `ConnectionReader.ReadStep` and `Inbound.Dispatch` are the corrected ones, and the rest of the model (`Session`) uses them.

=== FILE: connection_reader.dfy ===
/**
 * The reader thread `CWPConnectionReader`: it accumulates bytes until a
 * frame of the expected length (4 or 2) is complete, decodes it big-endian,
 * classifies it by length and sign into a staged state, and switches the
 * expected length for the next frame.
 *
 * One loop iteration is one `read` call on the stream; the bytes that call
 * returns (at most the room left in the frame) or end-of-stream are the
 * parameter. `Frames` is an independent whole-stream decoder the loop agrees
 * with however the stream is split into reads (`ChunkingIsTransparent`).
 */
module ConnectionReader {
  import opened Ints
  import opened Wire
  import opened CWProtocol
  import opened Inbound

  /** `bytesToRead` and the bytes read so far into the current frame. */
  datatype Reader = Reader(toRead: nat, buf: seq<Byte>)

  /** What one `read` call returns: some bytes, or -1 at end of stream. */
  datatype ReadResult = Data(bytes: seq<Byte>) | EndOfStream

  /** One loop iteration: what it staged, the reader after it, and whether the loop goes on. */
  datatype Cycle = Cycle(staged: seq<Staged>, next: Reader, running: bool)

  /** A classified frame: what it stages and the length of the frame expected after it. */
  datatype Frame = Frame(staged: seq<Staged>, nextLength: nat)

  datatype Option<T> = None | Some(value: T)

  /** A decoded stream: the states staged, in order, and the partial frame left over. */
  datatype Decoded = Decoded(staged: seq<Staged>, rest: Reader)

  /** The loop's invariant: a 4- or 2-byte frame is being read and is not yet complete. */
  predicate Valid(r: Reader)
  {
    (r.toRead == 2 || r.toRead == 4) && |r.buf| < r.toRead
  }

  /** How many bytes the next `read` asks for. */
  function Room(r: Reader): nat
    requires |r.buf| <= r.toRead
  {
    r.toRead - |r.buf|
  }

  /** The reader as the thread starts: the socket is open, Connected is staged, a 4-byte frame is expected. */
  function Open(): (c: Cycle)
    ensures c.running && Valid(c.next) && c.next.toRead == 4 && c.next.buf == []
    ensures c.staged == [Staged(Connected, 0)]
  {
    Cycle([Staged(Connected, 0)], Reader(4, []), true)
  }

  /**
   * The classification of a completed frame. A 2-byte frame is a line-down;
   * a 4-byte frame is a line-up when positive, a line-down (or frequency
   * confirmation) when negative, and nothing when it is the reserved value.
   * A 4-byte zero stages nothing either (see `ReadStepAsWritten` for the source).
   */
  function Classify(frame: seq<Byte>): (f: Frame)
    requires |frame| == 2 || |frame| == 4
    ensures |f.staged| <= 1
    ensures f.nextLength == 2 <==> (|f.staged| == 1 && f.staged[0].state == LineUp)
    ensures f.nextLength == 2 || f.nextLength == 4
    ensures |frame| == 2 ==> f.staged == [Staged(LineDown, Decode16(frame))]
    ensures |frame| == 4 ==> (f.staged == [] <==> Decode32(frame) == 0 || Decode32(frame) == Reserved)
    ensures |frame| == 4 ==> forall st :: st in f.staged ==>
      && st.value == Decode32(frame)
      && (st.state == LineUp || st.state == LineDown)
      && (st.state == LineUp <==> st.value > 0)
  {
    if |frame| == 2 then Frame([Staged(LineDown, Decode16(frame))], 4)
    else
      var v := Decode32(frame);
      if v > 0 then Frame([Staged(LineUp, v)], 2)
      else if v < 0 && v != Reserved then Frame([Staged(LineDown, v)], 4)
      else Frame([], 4)
  }

  /** Frames as the writer encodes them are classified by the value they carry. */
  lemma ClassifyEncoded(v: Int32, w: Int16)
    ensures Classify(Encode16(w)) == Frame([Staged(LineDown, w)], 4)
    ensures v > 0 ==> Classify(Encode32(v)) == Frame([Staged(LineUp, v)], 2)
    ensures v < 0 && v != Reserved ==> Classify(Encode32(v)) == Frame([Staged(LineDown, v)], 4)
    ensures v == Reserved || v == 0 ==> Classify(Encode32(v)) == Frame([], 4)
  {
    Decode32Encode32(v);
    Decode16Encode16(w);
  }

  /**
   * One iteration of the reader loop. Bytes accumulate until the frame is
   * complete; a complete frame is classified and a new read cycle begins
   * with the length it calls for. End of stream stages Disconnected and
   * ends the loop.
   */
  function ReadStep(r: Reader, res: ReadResult): (c: Cycle)
    requires Valid(r)
    requires res.Data? ==> |res.bytes| <= Room(r)
    ensures c.running <==> res.Data?
    ensures c.running ==> Valid(c.next)
    ensures !c.running ==> c.staged == [Staged(Disconnected, 0)]
    ensures res.Data? && |r.buf| + |res.bytes| < r.toRead ==>
      c.staged == [] && c.next == Reader(r.toRead, r.buf + res.bytes)
    ensures res.Data? && |r.buf| + |res.bytes| == r.toRead ==>
      Frame(c.staged, c.next.toRead) == Classify(r.buf + res.bytes) && c.next.buf == []
  {
    match res
    case EndOfStream => Cycle([Staged(Disconnected, 0)], r, false)
    case Data(bytes) =>
      var buf := r.buf + bytes;
      if |buf| < r.toRead then Cycle([], Reader(r.toRead, buf), true)
      else
        var f := Classify(buf);
        Cycle(f.staged, Reader(f.nextLength, []), true)
  }

  /**
   * The loop iteration as the source has it. A 4-byte frame of value 0 is
   * neither classified nor followed by a new read cycle: the frame stays
   * complete, the next `read` asks for zero bytes and returns zero, and the
   * same frame is decoded again.
   */
  function ReadStepAsWritten(r: Reader, res: ReadResult): (c: Cycle)
    requires (r.toRead == 2 || r.toRead == 4) && |r.buf| <= r.toRead
    requires res.Data? ==> |res.bytes| <= Room(r)
    requires Room(r) == 0 ==> res == Data([])
    ensures Valid(r) && !(res.Data? && CompletesZero(r, res.bytes)) ==> c == ReadStep(r, res)
    ensures res.Data? && CompletesZero(r, res.bytes) ==>
      c == Cycle([], Reader(4, r.buf + res.bytes), true)
  {
    match res
    case EndOfStream => Cycle([Staged(Disconnected, 0)], r, false)
    case Data(bytes) =>
      var buf := r.buf + bytes;
      if |buf| < r.toRead then Cycle([], Reader(r.toRead, buf), true)
      else if r.toRead == 4 && Decode32(buf) == 0 then Cycle([], Reader(4, buf), true)
      else
        var f := Classify(buf);
        Cycle(f.staged, Reader(f.nextLength, []), true)
  }

  /** The bytes complete a 4-byte frame whose value is 0. */
  predicate CompletesZero(r: Reader, bytes: seq<Byte>)
  {
    r.toRead == 4 && |r.buf| + |bytes| == 4 && Decode32(r.buf + bytes) == 0
  }

  /** The reader the source is left in after a 4-byte zero. */
  predicate Stalled(r: Reader)
  {
    r.toRead == 4 && |r.buf| == 4 && Decode32(r.buf) == 0
  }

  /**
   * A 4-byte zero stalls the source's reader: the only read it can then make
   * returns nothing, and the iteration leaves it exactly where it was, having
   * staged nothing. No later frame is ever decoded.
   */
  lemma ZeroFrameStallsReader(r: Reader, bytes: seq<Byte>)
    requires Valid(r) && r.toRead == 4 && |r.buf| + |bytes| == 4
    requires r.buf + bytes == Encode32(0)
    ensures var c := ReadStepAsWritten(r, Data(bytes));
      && c.staged == [] && c.running && Stalled(c.next) && Room(c.next) == 0
      && ReadStepAsWritten(c.next, Data([])) == c
  {
    Decode32Encode32(0);
    var c := ReadStepAsWritten(r, Data(bytes));
    assert c.next.buf + [] == c.next.buf;
  }

  /** With `ReadStep` the same frame stages nothing and a fresh 4-byte frame is read. */
  lemma ZeroFrameIsSkipped(r: Reader, bytes: seq<Byte>)
    requires Valid(r) && r.toRead == 4 && |r.buf| + |bytes| == 4
    requires r.buf + bytes == Encode32(0)
    ensures ReadStep(r, Data(bytes)) == Cycle([], Reader(4, []), true)
  {
    ClassifyEncoded(0, 0);
  }

  /** The reference decoder: a whole stream cut into frames from a given expected length. */
  function Frames(len: nat, s: seq<Byte>): (d: Decoded)
    requires len == 2 || len == 4
    ensures Valid(d.rest)
    ensures |d.staged| <= |s| / 2
    decreases |s|
  {
    if |s| < len then Decoded([], Reader(len, s))
    else
      var f := Classify(s[..len]);
      var d := Frames(f.nextLength, s[len..]);
      Decoded(f.staged + d.staged, d.rest)
  }

  /** The bytes of a sequence of reads, end to end. */
  function Concat(chunks: seq<seq<Byte>>): seq<Byte>
  {
    if chunks == [] then [] else chunks[0] + Concat(chunks[1..])
  }

  /**
   * The reader loop over a sequence of reads; `None` when some read returns
   * more bytes than it asked for, which a `read` call never does.
   */
  function Feed(r: Reader, chunks: seq<seq<Byte>>): (o: Option<Decoded>)
    requires Valid(r)
    ensures o.Some? ==> Valid(o.value.rest)
    ensures (forall i :: 0 <= i < |chunks| ==> |chunks[i]| == 1) ==> o.Some?
    decreases |chunks|
  {
    if chunks == [] then Some(Decoded([], r))
    else if |chunks[0]| > Room(r) then None
    else
      var c := ReadStep(r, Data(chunks[0]));
      match Feed(c.next, chunks[1..])
      case None => None
      case Some(d) => Some(Decoded(c.staged + d.staged, d.rest))
  }

  /** One read, then the reference decoder, is the reference decoder on all of it. */
  lemma StepThenFrames(r: Reader, bytes: seq<Byte>, s: seq<Byte>)
    requires Valid(r) && |bytes| <= Room(r)
    ensures var c := ReadStep(r, Data(bytes));
      var d := Frames(c.next.toRead, c.next.buf + s);
      Frames(r.toRead, r.buf + bytes + s) == Decoded(c.staged + d.staged, d.rest)
  {
    var buf := r.buf + bytes;
    assert r.buf + bytes + s == buf + s;
    if |buf| == r.toRead {
      assert (buf + s)[..r.toRead] == buf;
      assert (buf + s)[r.toRead..] == s;
      assert [] + s == s;
    }
  }

  /**
   * However the stream is split into reads, the loop stages what the
   * reference decoder stages for the bytes read, and stops in the same
   * partial frame.
   */
  lemma {:induction false} ChunkingIsTransparent(r: Reader, chunks: seq<seq<Byte>>)
    requires Valid(r)
    ensures Feed(r, chunks).Some? ==> Feed(r, chunks).value == Frames(r.toRead, r.buf + Concat(chunks))
    decreases |chunks|
  {
    if chunks == [] {
      assert r.buf + [] == r.buf;
    } else if |chunks[0]| <= Room(r) {
      var c := ReadStep(r, Data(chunks[0]));
      var rest := Concat(chunks[1..]);
      var o := Feed(c.next, chunks[1..]);
      FeedOne(r, chunks);
      if o.Some? {
        ChunkingIsTransparent(c.next, chunks[1..]);
        StepThenFrames(r, chunks[0], rest);
        ConcatOne(r.buf, chunks);
      }
    }
  }

  lemma FeedOne(r: Reader, chunks: seq<seq<Byte>>)
    requires Valid(r) && chunks != [] && |chunks[0]| <= Room(r)
    ensures var c := ReadStep(r, Data(chunks[0]));
      var o := Feed(c.next, chunks[1..]);
      Feed(r, chunks) == if o.None? then None else Some(Decoded(c.staged + o.value.staged, o.value.rest))
  {
  }

  lemma ConcatOne(prefix: seq<Byte>, chunks: seq<seq<Byte>>)
    requires chunks != []
    ensures prefix + Concat(chunks) == prefix + chunks[0] + Concat(chunks[1..])
  {
  }
}

=== FILE: connection_writer.dfy ===
/**
 * The writer thread `CWPConnectionWriter`: once its gate is open it sends
 * at most one frame, the 32-bit slot before the 16-bit one, clears the slot
 * it sent, and closes the gate again. The slots are overwritten rather than
 * queued, so only the latest payload of each width is ever sent.
 */
module ConnectionWriter {
  import opened Ints
  import opened Wire
  import opened CWProtocol

  /** One pass of the writer loop: the record after it and the bytes written to the stream. */
  datatype Sent = Sent(next: Protocol, wire: seq<Byte>)

  /**
   * One pass of the writer loop after `writerHandle.block()` returns; with
   * the gate closed the writer stays blocked and nothing happens. A failed
   * write still clears the slot, so the slot is cleared either way.
   */
  function SenderStep(p: Protocol): (s: Sent)
    ensures !p.wake ==> s == Sent(p, [])
    ensures p.wake ==> !s.next.wake
    // a non-empty 32-bit slot is sent first and emptied; the 16-bit slot waits
    ensures p.wake && p.data32bit != 0 ==>
      && |s.wire| == 4 && Decode32(s.wire) == p.data32bit
      && s.next.data32bit == 0 && s.next.data16bit == p.data16bit
    // otherwise a positive 16-bit slot is sent and emptied
    ensures p.wake && p.data32bit == 0 && p.data16bit > 0 ==>
      && |s.wire| == 2 && Decode16(s.wire) == p.data16bit
      && s.next.data16bit == 0 && s.next.data32bit == 0
    // an empty or non-positive 16-bit slot sends nothing and stays as it is
    ensures p.wake && p.data32bit == 0 && p.data16bit <= 0 ==>
      s.wire == [] && s.next.data16bit == p.data16bit && s.next.data32bit == 0
    // nothing but the slots and the gate changes
    ensures s.next.(data32bit := p.data32bit, data16bit := p.data16bit, wake := p.wake) == p
  {
    if !p.wake then Sent(p, [])
    else if p.data32bit != 0 then
      Decode32Encode32(p.data32bit);
      Sent(p.(data32bit := 0, wake := false), Encode32(p.data32bit))
    else if p.data16bit > 0 then
      Decode16Encode16(p.data16bit);
      Sent(p.(data16bit := 0, wake := false), Encode16(p.data16bit))
    else Sent(p.(wake := false), [])
  }

  /**
   * Two 32-bit payloads staged before the writer runs: exactly one frame
   * goes out, carrying the later one, and the writer then blocks.
   */
  lemma LatestPayloadWins(p: Protocol, first: Int32, second: Int32)
    requires second != 0
    ensures var s := SenderStep(Stage32(Stage32(p, first), second));
      && Decode32(s.wire) == second && |s.wire| == 4
      && SenderStep(s.next) == Sent(s.next, [])
  {
  }
}

=== FILE: cw_protocol.dfy ===
/**
 * The protocol state of `CWProtocolImplementation` and its local control
 * API (`lineUp`, `lineDown`, `setFrequency`, `sendFrequency` and the
 * accessors), as pure transitions on one immutable record.
 *
 * Time enters as a parameter `now` (milliseconds, a Java `long`); events
 * sent to the listener are returned as a list instead of being called back.
 */
module CWProtocol {
  import opened Ints

  datatype CWPState = Disconnected | Connected | LineUp | LineDown

  datatype EventKind =
    | EConnected | EDisconnected | ELineUp | ELineDown
    | EChangedFrequency | EServerStateChange

  datatype Event = Event(kind: EventKind, payload: Int32)

  /** The reserved 32-bit value: a wire no-op, never a real frequency. */
  const Reserved: Int32 := -0x8000_0000

  /**
   * The fields the engine's threads share.
   *   data32bit, data16bit  the two outbound slots the writer drains (0 = empty)
   *   wake                  the writer's wake gate (`writerHandle`) is open
   *   timerArmed            `monitor` refers to a live watchdog timer
   */
  datatype Protocol = Protocol(
    currentState: CWPState,
    lineUpByUser: bool,
    lineUpByServer: bool,
    currentFrequency: Int32,
    data32bit: Int32,
    data16bit: Int16,
    connectedStamp: int,
    lastLineUpStamp: int,
    timerArmed: bool,
    wake: bool)

  /** The result of an operation: the new record and the events sent to the listener, in order. */
  datatype Step = Step(next: Protocol, events: seq<Event>)

  /** `lineDown` either completes or throws when no watchdog timer is armed. */
  datatype Outcome = Completed(step: Step) | NullTimer(after: Protocol)

  /** Every field as the constructor leaves it; the default frequency is a constant outside this model. */
  function Initial(defaultFrequency: Int32): (p: Protocol)
    ensures p.currentState == Disconnected && !p.lineUpByUser && !p.lineUpByServer
    ensures p.data32bit == 0 && p.data16bit == 0 && !p.wake && !p.timerArmed
    ensures p.currentFrequency == defaultFrequency
    ensures p.connectedStamp == 0 && p.lastLineUpStamp == 0
  {
    Protocol(Disconnected, false, false, defaultFrequency, 0, 0, 0, 0, false, false)
  }

  /** `Math.abs(f) * -1` in 32-bit arithmetic: the stored, negated form of a frequency. */
  function Negated(f: Int32): (n: Int32)
    ensures n <= 0
    ensures f != Int32Min ==> n == -f || n == f
    ensures n == Reserved <==> f == Int32Min
  {
    ToInt32(-(Abs(f) as int))
  }

  /** Staging a 32-bit payload overwrites the slot and opens the writer's gate. */
  function Stage32(p: Protocol, v: Int32): (q: Protocol)
    ensures q.data32bit == v && q.wake
    ensures q.(data32bit := p.data32bit, wake := p.wake) == p
  {
    p.(data32bit := v, wake := true)
  }

  /** Staging a 16-bit payload overwrites the slot and opens the writer's gate. */
  function Stage16(p: Protocol, v: Int16): (q: Protocol)
    ensures q.data16bit == v && q.wake
    ensures q.(data16bit := p.data16bit, wake := p.wake) == p
  {
    p.(data16bit := v, wake := true)
  }

  /** `connect`, as far as the engine is concerned: it stores the frequency negated. */
  function Connect(p: Protocol, f: Int32): (q: Protocol)
    ensures q.currentFrequency <= 0
    ensures f != Int32Min ==> q.currentFrequency == -Abs(f)
    ensures f == Int32Min ==> q.currentFrequency == Reserved
    ensures Frequency(q) == Abs(f)
    ensures q.(currentFrequency := p.currentFrequency) == p
  {
    p.(currentFrequency := Negated(f))
  }

  /** The user keys the line up. */
  function LineUpByUser(p: Protocol, now: int): (s: Step)
    ensures s.next.lineUpByUser && s.next.currentState == LineUp && s.next.timerArmed
    ensures s.next.lastLineUpStamp == now
    ensures s.next.wake && (s.next.data32bit - (now - p.connectedStamp)) % Int32Modulus == 0
    ensures s.next.data16bit == p.data16bit && s.next.lineUpByServer == p.lineUpByServer
    ensures s.next.currentFrequency == p.currentFrequency && s.next.connectedStamp == p.connectedStamp
    ensures p.lineUpByServer <==> s.events == []
    ensures !p.lineUpByServer ==> s.events == [Event(ELineUp, 0)]
  {
    var staged := Stage32(p.(lineUpByUser := true, lastLineUpStamp := now), ToInt32(now - p.connectedStamp));
    Step(staged.(currentState := LineUp, timerArmed := true), if p.lineUpByServer then [] else [Event(ELineUp, 0)])
  }

  /**
   * The user releases the line. The payload and state change are made before
   * the watchdog is stopped; stopping a watchdog that is not armed throws,
   * so the listener then hears nothing.
   */
  function LineDownByUser(p: Protocol, now: int): (o: Outcome)
    ensures o.NullTimer? <==> !p.timerArmed
    ensures var q := if o.Completed? then o.step.next else o.after;
      && !q.lineUpByUser && q.currentState == LineDown && !q.timerArmed
      && q.wake && (q.data16bit - (now - p.lastLineUpStamp)) % Int16Modulus == 0
      // the 32-bit slot, the server flag, the frequency and both stamps are left alone
      && q.(lineUpByUser := p.lineUpByUser, currentState := p.currentState, timerArmed := p.timerArmed,
            wake := p.wake, data16bit := p.data16bit) == p
    ensures o.Completed? ==> (p.lineUpByServer <==> o.step.events == [])
    ensures o.Completed? && !p.lineUpByServer ==> o.step.events == [Event(ELineDown, 0)]
  {
    var staged := Stage16(p.(lineUpByUser := false), ToInt16(now - p.lastLineUpStamp));
    var q := staged.(currentState := LineDown, timerArmed := false);
    if !p.timerArmed then NullTimer(q)
    else Completed(Step(q, if p.lineUpByServer then [] else [Event(ELineDown, 0)]))
  }

  /** The private frequency send: it stages the stored frequency unless that is the reserved value. */
  function SendFrequency(p: Protocol): (s: Step)
    ensures p.currentFrequency == Reserved ==> s == Step(p, [])
    ensures p.currentFrequency != Reserved ==>
      && s.next.data32bit == p.currentFrequency && s.next.wake && s.next.currentState == Connected
      && s.next.(data32bit := p.data32bit, wake := p.wake, currentState := p.currentState) == p
      && s.events == [Event(EConnected, 0)]
  {
    if p.currentFrequency == Reserved then Step(p, [])
    else Step(Stage32(p, p.currentFrequency).(currentState := Connected), [Event(EConnected, 0)])
  }

  /** `setFrequency`: refused while the line is up, otherwise stored negated and sent. */
  function SetFrequency(p: Protocol, f: Int32): (s: Step)
    ensures p.currentState == LineUp ==> s == Step(p, [])
    ensures p.currentState != LineUp ==> s.next.currentFrequency == Negated(f) && Frequency(s.next) == Abs(f)
    ensures p.currentState != LineUp && f != Int32Min ==>
      && s.next.data32bit == -Abs(f) && s.next.wake && s.next.currentState == Connected
      // the flags, the stamps, the 16-bit slot and the timer are left alone
      && s.next.(currentFrequency := p.currentFrequency, data32bit := p.data32bit, wake := p.wake,
                 currentState := p.currentState) == p
      && s.events == [Event(EConnected, 0)]
    ensures p.currentState != LineUp && f == Int32Min ==>
      s == Step(p.(currentFrequency := Reserved), [])
  {
    if p.currentState == LineUp then Step(p, [])
    else SendFrequency(p.(currentFrequency := Negated(f)))
  }

  /** `frequency()`: the magnitude of the stored frequency (Java's `Math.abs`). */
  function Frequency(p: Protocol): (f: Int32)
    ensures p.currentFrequency != Int32Min ==> f >= 0 && (f == p.currentFrequency || f == -p.currentFrequency)
    ensures p.currentFrequency == Int32Min ==> f == Reserved
    ensures FrequencyNegated(p) ==> Negated(f) == p.currentFrequency
  {
    Abs(p.currentFrequency)
  }

  /** `isConnected()`: connected in every state but Disconnected, whether the line is up or down. */
  function IsConnected(p: Protocol): (b: bool)
    ensures b <==> p.currentState in {Connected, LineUp, LineDown}
  {
    p.currentState != Disconnected
  }

  /** `lineIsUp()`: a line that is up implies a connection. */
  function LineIsUp(p: Protocol): (b: bool)
    ensures b ==> IsConnected(p)
    ensures b <==> p.currentState == LineUp
  {
    p.currentState == LineUp
  }

  /** `serverSetLineUp()`; `Inbound.ServerFlagFollowsLineFrames` states what sets it. */
  function ServerSetLineUp(p: Protocol): bool
  {
    p.lineUpByServer
  }

  /** The stored frequency is kept in negated form. */
  predicate FrequencyNegated(p: Protocol)
  {
    p.currentFrequency <= 0
  }

  /** Every local operation keeps the frequency negated once `connect` has stored it so (as `Connect` ensures). */
  lemma LocalOperationsKeepFrequencyNegated(p: Protocol, f: Int32, now: int)
    requires FrequencyNegated(p)
    ensures FrequencyNegated(Connect(p, f))
    ensures FrequencyNegated(SetFrequency(p, f).next)
    ensures FrequencyNegated(SendFrequency(p).next)
    ensures FrequencyNegated(LineUpByUser(p, now).next)
    ensures var o := LineDownByUser(p, now);
      FrequencyNegated(if o.Completed? then o.step.next else o.after)
  {
  }

  /**
   * Setting the same frequency twice is setting it once, and of two settings
   * only the later one is stored and staged (unless it is the least value,
   * which stages nothing).
   */
  lemma RepeatedSetFrequency(p: Protocol, f: Int32, g: Int32)
    requires p.currentState != LineUp
    ensures SetFrequency(SetFrequency(p, f).next, f) == SetFrequency(p, f)
    ensures g != Int32Min ==> SetFrequency(SetFrequency(p, f).next, g) == SetFrequency(p, g)
    ensures Frequency(SetFrequency(SetFrequency(p, f).next, g).next) == Abs(g)
  {
  }

  /**
   * What the accessors report after the local operations. Keying the line
   * does not check the connection: afterwards the engine reports itself
   * connected whatever it was before.
   */
  lemma AccessorsAfterLocalOperations(p: Protocol, f: Int32, now: int)
    ensures var q := LineUpByUser(p, now).next;
      LineIsUp(q) && IsConnected(q) && ServerSetLineUp(q) == ServerSetLineUp(p)
    ensures var o := LineDownByUser(p, now);
      var q := if o.Completed? then o.step.next else o.after;
      !LineIsUp(q) && IsConnected(q) && ServerSetLineUp(q) == ServerSetLineUp(p)
    ensures p.currentState != LineUp && f != Int32Min ==>
      IsConnected(SetFrequency(p, f).next) && !LineIsUp(SetFrequency(p, f).next)
    ensures LineIsUp(p) ==> LineIsUp(SetFrequency(p, f).next)
  {
  }
}

=== FILE: inbound.dfy ===
/**
 * The processing step `run()`: it applies the state the reader staged
 * (`nextState` with its `messageValue`) and tells the listener.
 *
 * `DispatchAsWritten` follows the source line by line. `Dispatch` differs
 * in one guard only: a staged `Disconnected` is applied even while the user
 * holds the line, where the source drops it (see `DisconnectLostWhileKeyed`).
 * The rest of the model uses `Dispatch`.
 */
module Inbound {
  import opened Ints
  import opened CWProtocol

  /** What the reader hands over: the staged state and the decoded payload. */
  datatype Staged = Staged(state: CWPState, value: Int32)

  /** The event that reports entry into a state. */
  function Report(s: CWPState): EventKind
  {
    match s
    case Connected => EConnected
    case Disconnected => EDisconnected
    case LineDown => ELineDown
    case LineUp => ELineUp
  }

  predicate IsLine(s: CWPState)
  {
    s == LineUp || s == LineDown
  }

  /** The per-state switch at the end of `run()`, on the state now current. */
  function Announce(p: Protocol, value: Int32, now: int): (s: Step)
    ensures s.events == [Event(Report(p.currentState), value)]
    ensures s.next.currentState == p.currentState
    ensures s.next.lineUpByServer == (if IsLine(p.currentState) then p.currentState == LineUp else p.lineUpByServer)
    ensures s.next.connectedStamp == (if p.currentState == Connected then now else p.connectedStamp)
    ensures s.next.(lineUpByServer := p.lineUpByServer, connectedStamp := p.connectedStamp) == p
  {
    match p.currentState
    case Connected => Step(p.(connectedStamp := now), [Event(EConnected, value)])
    case Disconnected => Step(p, [Event(EDisconnected, value)])
    case LineDown => Step(p.(lineUpByServer := false), [Event(ELineDown, value)])
    case LineUp => Step(p.(lineUpByServer := true), [Event(ELineUp, value)])
  }

  /**
   * The part of `run()` after the staged state has been made current:
   * a Connected-to-LineDown move is the server's frequency confirmation,
   * checked against the stored frequency before the switch.
   */
  function Enter(p: Protocol, previous: CWPState, value: Int32, now: int): (s: Step)
    // a confirmation that does not match: the stored frequency is staged again, unless it is the reserved value
    ensures previous == Connected && p.currentState == LineDown && value != p.currentFrequency ==>
      && s.events == (if p.currentFrequency == Reserved then [] else [Event(EConnected, 0)])
      && (p.currentFrequency == Reserved ==> s.next == p)
      && (p.currentFrequency != Reserved ==>
            s.next == p.(currentState := Connected, data32bit := p.currentFrequency, wake := true))
    // a confirmation that matches: the change is reported by magnitude, then the line-down
    ensures previous == Connected && p.currentState == LineDown && value == p.currentFrequency ==>
      && s.events == [Event(EChangedFrequency, Abs(value)), Event(ELineDown, value)]
      && s.next == p.(lineUpByServer := false)
    // anything else is reported once, as the switch does
    ensures !(previous == Connected && p.currentState == LineDown) ==>
      && s.events == [Event(Report(p.currentState), value)]
      && s.next.currentState == p.currentState
      && s.next.lineUpByServer == (if IsLine(p.currentState) then p.currentState == LineUp else p.lineUpByServer)
      && s.next.connectedStamp == (if p.currentState == Connected then now else p.connectedStamp)
      && s.next.(lineUpByServer := p.lineUpByServer, connectedStamp := p.connectedStamp) == p
  {
    if previous == Connected && p.currentState == LineDown then
      if value != p.currentFrequency then SendFrequency(p)
      else
        var tail := Announce(p, value, now);
        Step(tail.next, [Event(EChangedFrequency, Abs(value))] + tail.events)
    else Announce(p, value, now)
  }

  /**
   * The source's branch for a user holding the line: the state stays, the
   * server flag becomes "staged LineUp", and a staged line change is routed
   * as a server state change; anything else reaches the switch on the old state.
   */
  function Keyed(p: Protocol, staged: Staged, now: int): (s: Step)
    ensures s.next.currentState == p.currentState
    ensures IsLine(staged.state) ==>
      && s.events == [Event(EServerStateChange, staged.value)]
      && s.next == p.(lineUpByServer := staged.state == LineUp)
    ensures !IsLine(staged.state) ==>
      && s.events == [Event(Report(p.currentState), staged.value)]
      && s.next.lineUpByServer == (p.currentState == LineUp)
      && s.next.connectedStamp == (if p.currentState == Connected then now else p.connectedStamp)
      && s.next.(lineUpByServer := p.lineUpByServer, connectedStamp := p.connectedStamp) == p
  {
    var q := p.(lineUpByServer := staged.state == LineUp);
    if IsLine(staged.state) then Step(q, [Event(EServerStateChange, staged.value)])
    else Enter(q, p.currentState, staged.value, now)
  }

  /** `run()` exactly as the source has it. */
  function DispatchAsWritten(p: Protocol, staged: Staged, now: int): (s: Step)
    ensures p.lineUpByUser ==> s.next.currentState == p.currentState
    ensures p.lineUpByUser && IsLine(staged.state) ==>
      && s.events == [Event(EServerStateChange, staged.value)]
      && s.next == p.(lineUpByServer := staged.state == LineUp)
    // a staged Connected or Disconnected is dropped: the switch reports the old state,
    // and the server flag, cleared first, ends up "the line is up"
    ensures p.lineUpByUser && !IsLine(staged.state) ==>
      && s.events == [Event(Report(p.currentState), staged.value)]
      && s.next.lineUpByServer == (p.currentState == LineUp)
      && s.next.connectedStamp == (if p.currentState == Connected then now else p.connectedStamp)
      && s.next.(lineUpByServer := p.lineUpByServer, connectedStamp := p.connectedStamp) == p
    ensures !(p.lineUpByUser && staged.state == Disconnected) ==> s == Dispatch(p, staged, now)
  {
    if p.lineUpByUser then Keyed(p, staged, now)
    else Enter(p.(currentState := staged.state), p.currentState, staged.value, now)
  }

  /** `run()` with a staged disconnect applied even while the user holds the line. */
  function Dispatch(p: Protocol, staged: Staged, now: int): (s: Step)
    // echo suppression: the user holds the line and the server reports a line change
    ensures p.lineUpByUser && IsLine(staged.state) ==>
      && s.events == [Event(EServerStateChange, staged.value)]
      && s.next == p.(lineUpByServer := staged.state == LineUp)
    // frequency confirmation that does not match: the stored frequency is sent again
    ensures !p.lineUpByUser && p.currentState == Connected && staged.state == LineDown
            && staged.value != p.currentFrequency ==>
      && s.events == (if p.currentFrequency == Reserved then [] else [Event(EConnected, 0)])
      // with the reserved frequency the line stays down and nothing is staged
      && (p.currentFrequency == Reserved ==> s.next == p.(currentState := LineDown))
      && (p.currentFrequency != Reserved ==> s.next == p.(data32bit := p.currentFrequency, wake := true))
    // frequency confirmation that matches: reported, then handled as a line-down
    ensures !p.lineUpByUser && p.currentState == Connected && staged.state == LineDown
            && staged.value == p.currentFrequency ==>
      && s.events == [Event(EChangedFrequency, Abs(staged.value)), Event(ELineDown, staged.value)]
      && s.next == p.(currentState := LineDown, lineUpByServer := false)
    // a staged Connected while the user holds the line: dropped, as the source does
    ensures p.lineUpByUser && staged.state == Connected ==>
      && s.events == [Event(Report(p.currentState), staged.value)]
      && s.next.lineUpByServer == (p.currentState == LineUp)
      && s.next.connectedStamp == (if p.currentState == Connected then now else p.connectedStamp)
      && s.next.(lineUpByServer := p.lineUpByServer, connectedStamp := p.connectedStamp) == p
    // every other staged state becomes current and is reported once, with its payload
    ensures (!p.lineUpByUser || staged.state == Disconnected)
            && !(p.currentState == Connected && staged.state == LineDown) ==>
      && s.events == [Event(Report(staged.state), staged.value)]
      && s.next.currentState == staged.state
      && s.next.lineUpByServer == (if IsLine(staged.state) then staged.state == LineUp else p.lineUpByServer)
      && s.next.connectedStamp == (if staged.state == Connected then now else p.connectedStamp)
      // the slots, the gate, the frequency, the user flag and the hold stamp are left alone
      && s.next.(currentState := p.currentState, lineUpByServer := p.lineUpByServer,
                 connectedStamp := p.connectedStamp) == p
    // the user's intent is never changed by what the server says
    ensures s.next.lineUpByUser == p.lineUpByUser
  {
    if p.lineUpByUser && staged.state != Disconnected then Keyed(p, staged, now)
    else Enter(p.(currentState := staged.state), p.currentState, staged.value, now)
  }

  /**
   * What `serverSetLineUp()` reports after a line change from the server:
   * whether the server's line is up, whoever holds the line, except when a
   * mismatched frequency confirmation was answered by re-sending instead.
   */
  lemma ServerFlagFollowsLineFrames(p: Protocol, staged: Staged, now: int)
    requires IsLine(staged.state)
    requires !(!p.lineUpByUser && p.currentState == Connected && staged.state == LineDown
               && staged.value != p.currentFrequency)
    ensures ServerSetLineUp(Dispatch(p, staged, now).next) == (staged.state == LineUp)
    ensures ServerSetLineUp(DispatchAsWritten(p, staged, now).next) == (staged.state == LineUp)
  {
  }

  /**
   * The source's `run()` drops a disconnect that arrives while the user holds
   * the line: the state stays LineUp and the listener is told the line is up.
   */
  lemma DisconnectLostWhileKeyed(p: Protocol, now: int)
    requires p.lineUpByUser && p.currentState == LineUp
    ensures var s := DispatchAsWritten(p, Staged(Disconnected, 0), now);
      && s.next.currentState == LineUp
      && s.events == [Event(ELineUp, 0)]
      && Event(EDisconnected, 0) !in s.events
  {
  }

  /** With `Dispatch`, a staged disconnect always ends in Disconnected and is always reported. */
  lemma DisconnectAlwaysReported(p: Protocol, value: Int32, now: int)
    ensures var s := Dispatch(p, Staged(Disconnected, value), now);
      && s.next.currentState == Disconnected
      && s.events == [Event(EDisconnected, value)]
  {
  }
}

=== FILE: ints.dfy ===
/**
 * Java's fixed-width integers, written out over Dafny's unbounded `int`.
 *
 * The protocol engine stores wire payloads in `int` and `short` fields and
 * produces them with narrowing casts from `long` millisecond differences;
 * this module states what those casts and `Math.abs` do at the edges.
 */
module Ints {

  const Int32Modulus: int := 0x1_0000_0000
  const Int16Modulus: int := 0x1_0000

  /** The least 32-bit value; `Math.abs` and unary minus map it to itself. */
  const Int32Min: int := -0x8000_0000

  type Int32 = x: int | -0x8000_0000 <= x < 0x8000_0000
  type Int16 = x: int | -0x8000 <= x < 0x8000
  type Byte = x: int | 0 <= x < 0x100

  /** The narrowing cast `(int) x`: the low 32 bits, read as two's complement. */
  function ToInt32(x: int): (r: Int32)
    ensures (x - r) % Int32Modulus == 0
    ensures -0x8000_0000 <= x < 0x8000_0000 ==> r == x
  {
    var m := x % Int32Modulus;
    if m < 0x8000_0000 then m else m - Int32Modulus
  }

  /** The narrowing cast `(short) x`: the low 16 bits, read as two's complement. */
  function ToInt16(x: int): (r: Int16)
    ensures (x - r) % Int16Modulus == 0
    ensures -0x8000 <= x < 0x8000 ==> r == x
  {
    var m := x % Int16Modulus;
    if m < 0x8000 then m else m - Int16Modulus
  }

  /** `Math.abs(int)`: the magnitude, except that the least value has none and is returned as is. */
  function Abs(x: Int32): (r: Int32)
    ensures x != Int32Min ==> r >= 0 && (r == x || r == -x)
    ensures x == Int32Min ==> r == Int32Min
  {
    if x < 0 then ToInt32(-(x as int)) else x
  }
}

=== FILE: session.dfy ===
/**
 * The engine end to end: a read by the reader thread, the processing of
 * what it staged, and the frames the writer then sends. Each staged state
 * is processed before the next read, as the handler's queue orders them.
 */
module Session {
  import opened Ints
  import opened Wire
  import opened CWProtocol
  import opened Inbound
  import opened ConnectionReader
  import opened ConnectionWriter

  /** The processing of staged states in order, events concatenated. */
  function Deliver(p: Protocol, staged: seq<Staged>, now: int): (s: Step)
    ensures staged == [] ==> s == Step(p, [])
    ensures |staged| == 1 ==> s == Dispatch(p, staged[0], now)
    ensures s.next.lineUpByUser == p.lineUpByUser
    decreases |staged|
  {
    if staged == [] then Step(p, [])
    else
      var first := Dispatch(p, staged[0], now);
      var rest := Deliver(first.next, staged[1..], now);
      Step(rest.next, first.events + rest.events)
  }

  /** One read by the reader thread and the processing of what it staged. */
  datatype Received = Received(step: Step, cycle: Cycle)

  function Receive(p: Protocol, r: Reader, res: ReadResult, now: int): (x: Received)
    requires Valid(r)
    requires res.Data? ==> |res.bytes| <= Room(r)
    // a read that does not complete a frame changes nothing and tells the listener nothing
    ensures res.Data? && |r.buf| + |res.bytes| < r.toRead ==>
      x.step == Step(p, []) && x.cycle.next == Reader(r.toRead, r.buf + res.bytes)
    // the reader goes on in a partial frame until the stream ends
    ensures x.cycle.running <==> res.Data?
    ensures x.cycle.running ==> Valid(x.cycle.next)
    ensures x.step.next.lineUpByUser == p.lineUpByUser
  {
    var c := ReadStep(r, res);
    Received(Deliver(p, c.staged, now), c)
  }

  /** Opening the connection: Connected is entered, reported, and its time recorded. */
  lemma OpeningConnects(p: Protocol, now: int)
    requires !p.lineUpByUser
    ensures var s := Deliver(p, Open().staged, now);
      && s.next.currentState == Connected && s.next.connectedStamp == now
      && s.events == [Event(EConnected, 0)]
  {
  }

  /** The reserved value received as a 4-byte frame changes nothing and tells the listener nothing. */
  lemma ReservedFrameIsInert(p: Protocol, r: Reader, bytes: seq<Byte>, now: int)
    requires Valid(r) && r.toRead == 4 && |r.buf| + |bytes| == 4
    requires r.buf + bytes == Encode32(Reserved)
    ensures var x := Receive(p, r, Data(bytes), now);
      && x.step == Step(p, [])
      && x.cycle == Cycle([], Reader(4, []), true)
  {
    ClassifyEncoded(Reserved, 0);
  }

  /** With the corrected processing, end of stream always ends in Disconnected, reported, and stops the reader. */
  lemma EndOfStreamDisconnects(p: Protocol, r: Reader, now: int)
    requires Valid(r)
    ensures var x := Receive(p, r, EndOfStream, now);
      && x.step.next.currentState == Disconnected
      && x.step.events == [Event(EDisconnected, 0)]
      && !x.cycle.running
  {
    DisconnectAlwaysReported(p, 0, now);
  }

  /**
   * A server line-up: a positive 4-byte frame. Unless the user holds the
   * line, it is reported with its payload; either way the next frame
   * expected is the 2-byte line-down.
   */
  lemma ServerLineUp(p: Protocol, r: Reader, bytes: seq<Byte>, v: Int32, now: int)
    requires Valid(r) && r.toRead == 4 && |r.buf| + |bytes| == 4
    requires r.buf + bytes == Encode32(v) && v > 0
    ensures var x := Receive(p, r, Data(bytes), now);
      && x.cycle.next == Reader(2, [])
      && x.step.next.lineUpByServer
      && (!p.lineUpByUser ==> x.step.events == [Event(ELineUp, v)] && x.step.next.currentState == LineUp)
      && (p.lineUpByUser ==>
            x.step.events == [Event(EServerStateChange, v)] && x.step.next.currentState == p.currentState)
  {
    ClassifyEncoded(v, 0);
  }

  /** A server line-down: a 2-byte frame is reported (or routed as a state change) and 4 bytes are expected again. */
  lemma ServerLineDown(p: Protocol, r: Reader, bytes: seq<Byte>, w: Int16, now: int)
    requires Valid(r) && r.toRead == 2 && |r.buf| + |bytes| == 2
    requires r.buf + bytes == Encode16(w)
    requires p.currentState != Connected
    ensures var x := Receive(p, r, Data(bytes), now);
      && x.cycle.next == Reader(4, [])
      && !x.step.next.lineUpByServer
      && (!p.lineUpByUser ==> x.step.events == [Event(ELineDown, w)] && x.step.next.currentState == LineDown)
      && (p.lineUpByUser ==> x.step.events == [Event(EServerStateChange, w)])
  {
    ClassifyEncoded(0, w);
  }

  /**
   * A frequency confirmation that does not match the stored frequency: the
   * stored frequency is staged again, and the writer's next frame carries it.
   */
  lemma MismatchedConfirmationResends(p: Protocol, r: Reader, bytes: seq<Byte>, v: Int32, now: int)
    requires Valid(r) && r.toRead == 4 && |r.buf| + |bytes| == 4
    requires r.buf + bytes == Encode32(v) && v < 0 && v != Reserved
    requires !p.lineUpByUser && p.currentState == Connected
    requires v != p.currentFrequency && p.currentFrequency != Reserved && p.currentFrequency != 0
    ensures var x := Receive(p, r, Data(bytes), now);
      var out := SenderStep(x.step.next);
      && x.step.events == [Event(EConnected, 0)]
      && x.step.next.currentState == Connected
      && |out.wire| == 4 && Decode32(out.wire) == p.currentFrequency
  {
    ClassifyEncoded(v, 0);
  }

  /**
   * A stored frequency of 0 is the writer's empty 32-bit slot: setting it
   * reports EConnected(0) but no 4-byte frame ever carries it.
   */
  lemma ZeroFrequencyIsNeverSent(p: Protocol)
    requires p.currentState != LineUp
    ensures var s := SetFrequency(p, 0);
      var out := SenderStep(s.next);
      && s.events == [Event(EConnected, 0)]
      && s.next.currentFrequency == 0 && s.next.data32bit == 0 && s.next.wake
      && |out.wire| != 4
  {
  }

  /** A frequency confirmation that matches: the change is reported by magnitude and the line is down. */
  lemma MatchedConfirmationReported(p: Protocol, r: Reader, bytes: seq<Byte>, now: int)
    requires Valid(r) && r.toRead == 4 && |r.buf| + |bytes| == 4
    requires !p.lineUpByUser && p.currentState == Connected
    requires p.currentFrequency < 0 && p.currentFrequency != Reserved
    requires r.buf + bytes == Encode32(p.currentFrequency)
    ensures var x := Receive(p, r, Data(bytes), now);
      && x.step.events == [Event(EChangedFrequency, -p.currentFrequency), Event(ELineDown, p.currentFrequency)]
      && x.step.next.currentState == LineDown
      && x.cycle.next == Reader(4, [])
  {
    ClassifyEncoded(p.currentFrequency, 0);
  }

  /**
   * Echo suppression end to end: after the user keys the line up, the
   * server's echoed line-up is routed as a state change, not a new line-up,
   * and the line stays up.
   */
  lemma EchoedLineUpIsNotReported(p: Protocol, r: Reader, bytes: seq<Byte>, v: Int32, t0: int, t1: int)
    requires Valid(r) && r.toRead == 4 && |r.buf| + |bytes| == 4
    requires r.buf + bytes == Encode32(v) && v > 0
    ensures var up := LineUpByUser(p, t0);
      var x := Receive(up.next, r, Data(bytes), t1);
      && x.step.events == [Event(EServerStateChange, v)]
      && Event(ELineUp, v) !in x.step.events
      && x.step.next.currentState == LineUp
      && x.step.next.lineUpByServer
  {
    ClassifyEncoded(v, 0);
  }
}

=== FILE: watchdog.dfy ===
/**
 * The line-up watchdog: a timer task, run every 16 seconds while the user
 * holds the line, that forces a synthetic line-down/line-up pair once the
 * line has been held for 30 seconds, so that the elapsed times sent on the
 * wire stay small. It changes no state the listener sees and emits no event.
 */
module Watchdog {
  import opened Ints
  import opened Wire
  import opened CWProtocol
  import opened ConnectionWriter

  /** Hold time, in milliseconds, after which a tick forces the synthetic pair. */
  const HoldLimit: int := 30000

  /** Milliseconds between ticks (the timer's fixed rate; the first tick is immediate). */
  const TickPeriod: int := 16000

  /** A tick acts only while the user holds the line and has held it long enough. */
  function Fires(p: Protocol, now: int): (b: bool)
    ensures b ==> LineIsUp(p) && p.lineUpByUser && now >= p.lastLineUpStamp + HoldLimit
    ensures LineIsUp(p) && p.lineUpByUser && now >= p.lastLineUpStamp + HoldLimit ==> b
  {
    p.lineUpByUser && p.currentState == LineUp && now - p.lastLineUpStamp >= HoldLimit
  }

  /** The first half of `handleLongLineUpMessage`: a line-down carrying the hold time. */
  function StageSyntheticDown(p: Protocol, now: int): (q: Protocol)
    ensures q.wake && (q.data16bit - (now - p.lastLineUpStamp)) % Int16Modulus == 0
    ensures q.(data16bit := p.data16bit, wake := p.wake) == p
  {
    Stage16(p, ToInt16(now - p.lastLineUpStamp))
  }

  /** The second half: the hold restarts now, and a line-up carrying the time since connecting. */
  function StageSyntheticUp(p: Protocol, now: int): (q: Protocol)
    ensures q.wake && q.lastLineUpStamp == now
    ensures (q.data32bit - (now - p.connectedStamp)) % Int32Modulus == 0
    ensures q.(data32bit := p.data32bit, lastLineUpStamp := p.lastLineUpStamp, wake := p.wake) == p
  {
    Stage32(p.(lastLineUpStamp := now), ToInt32(now - p.connectedStamp))
  }

  /** One run of the timer task. */
  function Tick(p: Protocol, now: int): (q: Protocol)
    ensures !Fires(p, now) ==> q == p
    ensures Fires(p, now) ==>
      && q.wake && q.lastLineUpStamp == now
      && (q.data16bit - (now - p.lastLineUpStamp)) % Int16Modulus == 0
      && (q.data32bit - (now - p.connectedStamp)) % Int32Modulus == 0
    // the state, the flags, the frequency and the timer are left alone
    ensures q.currentState == p.currentState && q.lineUpByUser == p.lineUpByUser
    ensures q.lineUpByServer == p.lineUpByServer && q.currentFrequency == p.currentFrequency
    ensures q.connectedStamp == p.connectedStamp && q.timerArmed == p.timerArmed
  {
    if Fires(p, now) then StageSyntheticUp(StageSyntheticDown(p, now), now) else p
  }

  /**
   * The user's own operations and the watchdog: a line just keyed up is not
   * cut for 30 seconds, and a released line is never cut.
   */
  lemma FreshHoldDoesNotFire(p: Protocol, now: int, later: int)
    requires later - now < HoldLimit
    ensures !Fires(LineUpByUser(p, now).next, later)
    ensures var o := LineDownByUser(p, now);
      !Fires(if o.Completed? then o.step.next else o.after, later)
  {
  }

  /**
   * With the timer's fixed rate, a line held without a break meets the first
   * tick at once and the second 16 seconds later, neither of which acts; the
   * third, 32 seconds after the line-up, forces the synthetic pair.
   */
  lemma ThirdTickFires(p: Protocol, t: int)
    ensures !Fires(LineUpByUser(p, t).next, t)
    ensures !Fires(LineUpByUser(p, t).next, t + TickPeriod)
    ensures Fires(LineUpByUser(p, t).next, t + 2 * TickPeriod)
  {
  }

  /** After a tick fires the hold restarts, so the very next tick cannot fire again. */
  lemma FiringRestartsHold(p: Protocol, now: int, later: int)
    requires Fires(p, now) && later - now < HoldLimit
    ensures Tick(Tick(p, now), later) == Tick(p, now)
  {
  }

  /**
   * When the writer runs only after the whole tick, it sends the line-up
   * frame; the line-down payload is still staged behind it. When the writer
   * runs between the two halves, the line-down frame goes out first and the
   * line-up frame after it. Either way the frames carry the hold time and the
   * time since connecting, provided the hold is below 32768 ms and the 32-bit
   * slot had been drained.
   */
  lemma SyntheticFramesOnTheWire(p: Protocol, now: int)
    requires Fires(p, now) && p.data32bit == 0
    requires now - p.lastLineUpStamp < 0x8000
    requires 0 < now - p.connectedStamp < 0x8000_0000
    ensures var s := SenderStep(Tick(p, now));
      && Decode32(s.wire) == now - p.connectedStamp
      && s.next.data16bit == now - p.lastLineUpStamp > 0
    ensures var first := SenderStep(StageSyntheticDown(p, now));
      var second := SenderStep(StageSyntheticUp(first.next, now));
      && |first.wire| == 2 && Decode16(first.wire) == now - p.lastLineUpStamp
      && |second.wire| == 4 && Decode32(second.wire) == now - p.connectedStamp
  {
  }
}

=== FILE: wire.dfy ===
/**
 * The wire codec: 4-byte and 2-byte big-endian two's-complement integers,
 * as `ByteBuffer.putInt`/`putShort` write them and `getInt`/`getShort`
 * read them back. There is no header or tag: a frame is its bytes.
 */
module Wire {
  import opened Ints

  function Pow256(n: nat): (p: nat)
    ensures p >= 1
  {
    if n == 0 then 1 else 256 * Pow256(n - 1)
  }

  /** The unsigned value of a big-endian byte string. */
  function FromBigEndian(bs: seq<Byte>): nat
  {
    if |bs| == 0 then 0 else FromBigEndian(bs[..|bs| - 1]) * 256 + bs[|bs| - 1]
  }

  /** The `n` big-endian bytes of an unsigned value below 256^n. */
  function ToBigEndian(u: nat, n: nat): (bs: seq<Byte>)
    requires u < Pow256(n)
    ensures |bs| == n
  {
    if n == 0 then [] else ToBigEndian(u / 256, n - 1) + [u % 256]
  }

  lemma {:induction false} FromBigEndianBound(bs: seq<Byte>)
    ensures FromBigEndian(bs) < Pow256(|bs|)
  {
    if |bs| > 0 {
      var init := bs[..|bs| - 1];
      FromBigEndianBound(init);
      assert FromBigEndian(init) + 1 <= Pow256(|init|);
      assert (FromBigEndian(init) + 1) * 256 <= Pow256(|init|) * 256;
    }
  }

  lemma {:induction false} FromToBigEndian(u: nat, n: nat)
    requires u < Pow256(n)
    ensures FromBigEndian(ToBigEndian(u, n)) == u
  {
    if n > 0 {
      var bs := ToBigEndian(u, n);
      assert bs[..n - 1] == ToBigEndian(u / 256, n - 1);
      FromToBigEndian(u / 256, n - 1);
    }
  }

  lemma {:induction false} ToFromBigEndian(bs: seq<Byte>)
    ensures FromBigEndian(bs) < Pow256(|bs|)
    ensures ToBigEndian(FromBigEndian(bs), |bs|) == bs
  {
    FromBigEndianBound(bs);
    if |bs| > 0 {
      var init := bs[..|bs| - 1];
      var u := FromBigEndian(bs);
      assert u / 256 == FromBigEndian(init) && u % 256 == bs[|bs| - 1];
      ToFromBigEndian(init);
      assert bs == init + [bs[|bs| - 1]];
    }
  }

  /** The unsigned bit pattern of a signed value below `modulus / 2` in magnitude, and back. */
  function Unsigned(v: int, modulus: nat): (u: nat)
    requires -(modulus / 2) <= v < modulus / 2
    ensures u < modulus
  {
    if v < 0 then v + modulus else v
  }

  function Signed(u: nat, modulus: nat): int
    requires u < modulus
  {
    if u < modulus / 2 then u else u - modulus
  }

  /** The unsigned value of four bytes, the first the most significant. */
  function BigEndian32(bs: seq<Byte>): nat
    requires |bs| == 4
  {
    bs[0] as int * 0x100_0000 + bs[1] as int * 0x1_0000 + bs[2] as int * 0x100 + bs[3] as int
  }

  /** The unsigned value of two bytes, the first the most significant. */
  function BigEndian16(bs: seq<Byte>): nat
    requires |bs| == 2
  {
    bs[0] as int * 0x100 + bs[1] as int
  }

  /** The recursive value of a 4-byte string is the byte-by-byte one. */
  lemma FourBytes(bs: seq<Byte>)
    requires |bs| == 4
    ensures FromBigEndian(bs) == BigEndian32(bs)
  {
    assert bs[..3][..2] == bs[..2] && bs[..2][..1] == bs[..1] && bs[..1][..0] == [];
    assert FromBigEndian(bs[..1]) == bs[0] as int;
    assert FromBigEndian(bs[..2]) == bs[0] as int * 0x100 + bs[1] as int;
    assert FromBigEndian(bs[..3]) == (bs[0] as int * 0x100 + bs[1] as int) * 0x100 + bs[2] as int;
  }

  /** The recursive value of a 2-byte string is the byte-by-byte one. */
  lemma TwoBytes(bs: seq<Byte>)
    requires |bs| == 2
    ensures FromBigEndian(bs) == BigEndian16(bs)
  {
    assert bs[..1][..0] == [];
    assert FromBigEndian(bs[..1]) == bs[0] as int;
  }

  /** `sendMessage(int)`: the four bytes `putInt` writes. */
  function Encode32(v: Int32): (bs: seq<Byte>)
    ensures |bs| == 4
    // most significant byte first: the bytes spell the two's-complement bit pattern of v
    ensures BigEndian32(bs) == Unsigned(v, Int32Modulus)
    ensures bs[0] >= 0x80 <==> v < 0
  {
    assert Pow256(4) == Int32Modulus;
    var u := Unsigned(v, Int32Modulus);
    var bs := ToBigEndian(u, 4);
    FromToBigEndian(u, 4);
    FourBytes(bs);
    bs
  }

  /** `getInt` on a completed 4-byte frame. */
  function Decode32(bs: seq<Byte>): (v: Int32)
    requires |bs| == 4
    // the first byte is the most significant, read as two's complement
    ensures (v - BigEndian32(bs)) % Int32Modulus == 0
    ensures v < 0 <==> bs[0] >= 0x80
  {
    FourBytes(bs);
    Signed(FromBigEndian(bs), Int32Modulus)
  }

  /** `sendMessage(short)`: the two bytes `putShort` writes. */
  function Encode16(v: Int16): (bs: seq<Byte>)
    ensures |bs| == 2
    ensures BigEndian16(bs) == Unsigned(v, Int16Modulus)
    ensures bs[0] >= 0x80 <==> v < 0
  {
    assert Pow256(2) == Int16Modulus;
    var u := Unsigned(v, Int16Modulus);
    var bs := ToBigEndian(u, 2);
    FromToBigEndian(u, 2);
    TwoBytes(bs);
    bs
  }

  /** `getShort` on a completed 2-byte frame. */
  function Decode16(bs: seq<Byte>): (v: Int16)
    requires |bs| == 2
    ensures (v - BigEndian16(bs)) % Int16Modulus == 0
    ensures v < 0 <==> bs[0] >= 0x80
  {
    TwoBytes(bs);
    Signed(FromBigEndian(bs), Int16Modulus)
  }

  lemma Decode32Encode32(v: Int32)
    ensures Decode32(Encode32(v)) == v
  {
    assert Pow256(4) == Int32Modulus;
    FromToBigEndian(Unsigned(v, Int32Modulus), 4);
  }

  lemma Encode32Decode32(bs: seq<Byte>)
    requires |bs| == 4
    ensures Encode32(Decode32(bs)) == bs
  {
    assert Pow256(4) == Int32Modulus;
    ToFromBigEndian(bs);
  }

  lemma Decode16Encode16(v: Int16)
    ensures Decode16(Encode16(v)) == v
  {
    assert Pow256(2) == Int16Modulus;
    FromToBigEndian(Unsigned(v, Int16Modulus), 2);
  }

  lemma Encode16Decode16(bs: seq<Byte>)
    requires |bs| == 2
    ensures Encode16(Decode16(bs)) == bs
  {
    assert Pow256(2) == Int16Modulus;
    ToFromBigEndian(bs);
  }
}
